=== FILE: README.md ===
# Course sign-up and course title, modelled in Dafny

This project models two components of the campus front end.

The **course sign-up page** (`ClasssignupPage`) holds four pieces of state:

- the course list filtered by cohort ("generation");
- the set of course ids the user joined in this session;
- a registration cache, mapping a course id to the registrations looked up for it;
- the selected cohort.

It loads and filters courses, looks up the user's registration for one course, joins courses, and deletes or edits courses. After a delete or an edit it reloads the whole list.

The **course title component** (`CourseTitleComponent`) does three things:

- takes the active course id from a stored JSON array;
- loads that course, turning a single object into a one-element list;
- reloads after an edit or create modal reports a change.

Both components are written as pure transition functions over immutable state records. Every remote response is an input value, and so is every stored value, confirmation answer and modal result. A transition returns the new state, plus the notice the user sees and the remote request sent, where the source has them.

Modules:

- `Remote`: optional values, the outcome of a remote call (`Success(data)`, `HttpError(status)`, `OtherError(message?)`), and JavaScript truthiness.
- `Courses`: the course record and the cohort filter, with its order-preservation proof.
- `Registrations`: lookup records, how a raw record maps to the cached snapshot, and the join request.
- `Notices`: the alert categories, their texts, and the failure classifier.
- `ClassSignup`: the sign-up page. The `Run` function replays any sequence of user actions.
- `CourseTitle`: the course title component.

Behaviours of the code worth noting:

- `JoinCourse` has no in-flight or already-joined guard. A second join of a joined course sends another request (`ClassSignup.JoinHasNoDuplicateGuard`).
- Update and delete always reload the whole list. They never patch it in place.
- The `message` of a non-200 join response is never shown. The code throws it as a plain `Error`, and the catch block replaces it with the generic join-failure text.
- `createCourse` on the sign-up page only opens the modal and never reloads.
- `isRegistered` is the predicate `ClassSignup.IsRegistered`, a pure set lookup with no contract of its own. Its behaviour is stated by `ClassSignup.JoinRegisters` and `ClassSignup.RunKeepsRegistrations`.
- Changing the cohort does not clear the session's joined ids or the registration cache. A failed reload after a cohort change keeps the previous cohort's courses on screen.
- The default cohort is `"3기"`, but the hard-coded cohort choices are `'1'`–`'5'`.
- The sign-up page reads the stored course id with `Number(...)`. The title component reads the same key as a JSON array, and `Number` of an array text such as `"[5]"` is NaN. So that lookup runs only when the stored text is a plain non-zero number.
- A course title load that fails with an HTTP error response shows the generic load message, because Angular's HTTP error response is not an `Error` instance.

## Model

| member | source | states |
|---|---|---|
| Courses.Selected | campus/src/app/page/studyroompage/classsignup/classsignup.page.ts:143-145 | a course is kept iff it is in the fetched list and its generation equals the selected one; the result is no longer than the input |
| Courses.SelectedIsOrderedSelection | campus/src/app/page/studyroompage/classsignup/classsignup.page.ts:143-145 | the kept courses are the fetched list's courses at strictly increasing positions that include every matching position, so the filter is the order-preserving subsequence of matching courses |
| Courses.SelectedKeepsDistinctIds | campus/src/app/page/studyroompage/classsignup/classsignup.page.ts:143-145 | filtering a list without duplicate course ids yields a list without duplicate course ids |
| Courses.SelectedIdempotent | campus/src/app/page/studyroompage/classsignup/classsignup.page.ts:143-145 | filtering a filtered list again by the same cohort changes nothing |
| Courses.FilterScenario | campus/src/app/page/studyroompage/classsignup/classsignup.page.ts:143-145 | generations "1","3","3","5" filtered by "3" keep exactly the two cohort-3 courses in their order |
| ClassSignup.LoadCourses | campus/src/app/page/studyroompage/classsignup/classsignup.page.ts:138-153 | a response with data replaces the list by its matching courses; a failure or a response without data (the filter throws) keeps the previous list; the error is logged iff the list was kept, and an empty result is logged as such; joined ids, cache and cohort never change |
| ClassSignup.LoadedInOrder | campus/src/app/page/studyroompage/classsignup/classsignup.page.ts:141-146 | after a successful load the list is exactly the order-preserving subsequence of the fetched list in the selected cohort |
| ClassSignup.LoadIdempotent | campus/src/app/page/studyroompage/classsignup/classsignup.page.ts:138-153 | two loads with the same response end in the same state as one |
| ClassSignup.ChangeGeneration | campus/src/app/page/studyroompage/classsignup/classsignup.page.ts:132-135 | changing the cohort reloads with the new cohort: a successful fetch yields the same filter result as a load, the joined ids and the cache are kept, and a failed fetch keeps the old list |
| ClassSignup.ChangedInOrder | campus/src/app/page/studyroompage/classsignup/classsignup.page.ts:132-135 | after a cohort change with a successful fetch, the list is exactly the order-preserving subsequence of the fetched list in the new cohort |
| ClassSignup.LookupRegistration | campus/src/app/page/studyroompage/classsignup/classsignup.page.ts:69-115 | the cache entry for the course id is overwritten by the one mapped registration iff the response has data with both user and course; otherwise the cache is unchanged; other keys are untouched; a response without data is silent, one missing its user or course is logged, and only a failed call raises the load-failure alert |
| ClassSignup.LookupOverwrites | campus/src/app/page/studyroompage/classsignup/classsignup.page.ts:107 | a usable lookup replaces whatever an earlier lookup cached for the same course |
| Registrations.MapRegistration | campus/src/app/page/studyroompage/classsignup/classsignup.page.ts:86-105 | id, status, date, user id and course id are copied; each present, non-empty text field is copied as is, and each missing or empty one becomes empty text |
| Registrations.MapUserRoundTrip | campus/src/app/page/studyroompage/classsignup/classsignup.page.ts:90-96 | mapping a fully present user snapshot gives it back; mapping loses information iff some user text field is missing |
| Registrations.MapCourseRoundTrip | campus/src/app/page/studyroompage/classsignup/classsignup.page.ts:97-104 | mapping a fully present course snapshot gives it back; mapping loses information iff some course text field is missing |
| Registrations.JoinRequest | campus/src/app/page/studyroompage/classsignup/classsignup.page.ts:225-237 | the join request has id 0, status PENDING, the given time, no course, an empty email and the stored identity with missing fields as empty text |
| Registrations.JoinRequestDeterminedByIdentity | campus/src/app/page/studyroompage/classsignup/classsignup.page.ts:230-236 | two stored identities give the same request iff they agree on the user number and on each text field read with the empty-text default |
| Notices.TextsDistinct | campus/src/app/page/studyroompage/classsignup/classsignup.page.ts:113-267 | two alert categories share a text iff they are the same category |
| Notices.FailureNotice | campus/src/app/page/studyroompage/classsignup/classsignup.page.ts:253-271 | HTTP 400, 401 and 409 map to their fixed alerts and every other status to server error; a non-HTTP failure maps to the generic join failure |
| ClassSignup.JoinCourse | campus/src/app/page/studyroompage/classsignup/classsignup.page.ts:215-273 | without a token, no request is sent and the login-required alert shows; otherwise the request sent is exactly the PENDING id-0 join request built from the stored identity and the given time; the course joins the set iff the status is 200; the success alert shows iff it joined; every failure leaves the set unchanged |
| ClassSignup.JoinRegisters | campus/src/app/page/studyroompage/classsignup/classsignup.page.ts:243-246 | after a join, the course counts as registered iff it already did or the join was accepted |
| ClassSignup.JoinIgnoresMessage | campus/src/app/page/studyroompage/classsignup/classsignup.page.ts:247-253 | two responses that differ only in message lead to the same state and alert |
| ClassSignup.JoinFailureNotices | campus/src/app/page/studyroompage/classsignup/classsignup.page.ts:251-271 | with a token, 409, 401 and 400 transport errors give their fixed alerts, other statuses give server error, and non-HTTP errors, non-200 bodies and a missing body (reading its status throws) give the generic failure |
| ClassSignup.JoinHasNoDuplicateGuard | campus/src/app/page/studyroompage/classsignup/classsignup.page.ts:215-241 | joining a course already joined still sends a request, and the course stays registered |
| ClassSignup.JoinScenario | campus/src/app/page/studyroompage/classsignup/classsignup.page.ts:243-246 | a 200 response to joining course 42 registers it with the success alert |
| ClassSignup.DeleteCourse | campus/src/app/page/studyroompage/classsignup/classsignup.page.ts:195-207 | declining sends nothing and changes nothing; confirming sends the delete; a full reload happens iff the delete returned a response; otherwise the state is unchanged |
| ClassSignup.UpdateCourse | campus/src/app/page/studyroompage/classsignup/classsignup.page.ts:168-191 | a dismissal without data sends nothing; otherwise the data is sent as the update of the edited course's id; a full reload happens iff the update succeeds; otherwise the state is unchanged |
| ClassSignup.MutationReloadIsFull | campus/src/app/page/studyroompage/classsignup/classsignup.page.ts:200-203 | the list after a reload depends only on the fetched list and the cohort, not on the list shown before |
| ClassSignup.Initialize | campus/src/app/page/studyroompage/classsignup/classsignup.page.ts:38-59 | a truthy stored cohort replaces the default; the lookup runs iff both stored numbers are non-zero and not NaN, with exactly those ids; the cache then holds exactly the one mapped registration under the stored course id when the response is usable, and is empty otherwise; the list is the filter result of the fetched list for the resulting cohort, or empty when the fetch fails; the load-failure alert shows iff the lookup ran and its call failed |
| ClassSignup.LoadAndLookupCommute | campus/src/app/page/studyroompage/classsignup/classsignup.page.ts:53-58 | the unawaited load and lookup started at initialisation give the same state in either completion order |
| ClassSignup.RunKeepsRegistrations | campus/src/app/page/studyroompage/classsignup/classsignup.page.ts:277-279 | over any action sequence, no id ever leaves the joined set, and the set grows by exactly the ids of accepted joins |
| CourseTitle.StoredCourseId | campus/src/app/component/course-title/course-title.component.ts:26-36 | the active id is the first element iff the stored text is present and parses to a non-empty array; otherwise it is 0 |
| CourseTitle.Construct | campus/src/app/component/course-title/course-title.component.ts:16-37 | a new component has no courses, no error and is not loading, and its active id is the one taken from the stored text and its parse; a non-zero id came from a non-empty stored array |
| CourseTitle.NoStoredIdNoFetch | campus/src/app/component/course-title/course-title.component.ts:26-46 | an absent, unparseable, non-array or empty stored value leads to the missing-id message and no fetch |
| CourseTitle.Init | campus/src/app/component/course-title/course-title.component.ts:39-46 | a fetch is issued iff the course id is non-zero; a zero id only sets the missing-id message |
| CourseTitle.SingleIsOneElementArray | campus/src/app/component/course-title/course-title.component.ts:66-71 | loading a single-object payload shows exactly the one-element list holding it, the same state as the one-element array response |
| CourseTitle.LoadTitle | campus/src/app/component/course-title/course-title.component.ts:49-79 | loading always ends not loading; with no id nothing is fetched; success shows a single object as the one-element list and an array as it is, with no error; any failure empties the list; a non-HTTP error with a message shows that message, one without a message and an HTTP error response show the generic text, and a response without data shows the no-data text |
| CourseTitle.LoadTitleIdempotent | campus/src/app/component/course-title/course-title.component.ts:49-79 | reloading with the same response does not change the outcome |
| CourseTitle.OpenUpdateModal | campus/src/app/component/course-title/course-title.component.ts:82-102 | a reload happens iff the edit modal closes with `updated` set; otherwise the state is unchanged, except that a modal failure sets the modal error message |
| CourseTitle.OpenCreateModal | campus/src/app/component/course-title/course-title.component.ts:105-124 | a reload happens iff the create modal closes with `created` set; otherwise the state is unchanged, except that a modal failure sets the modal error message |
| CourseTitle.ModalFlagsAreSeparate | campus/src/app/component/course-title/course-title.component.ts:93-119 | the edit modal ignores the `created` flag and the create modal ignores the `updated` flag, while each reloads on its own flag |
| CourseTitle.ClearError | campus/src/app/component/course-title/course-title.component.ts:127-129 | the error message becomes empty and nothing else changes |
| CourseTitle.ClearErrorAfterSuccess | campus/src/app/component/course-title/course-title.component.ts:127-129 | clearing after a successful load changes nothing, and clearing is idempotent |

## Left out

- Angular and Ionic plumbing (decorators, dependency injection, creating and presenting modals) is not modelled. A modal's result is an input: `Option<Course>` on the sign-up page, `ModalOutcome` in the title component.
- The course service and HTTP transport are outside this model. Each call's outcome is an input, `Success`, `HttpError` or `OtherError`. The service's own behaviour is not modelled.
- localStorage and sessionStorage are not modelled. Stored values are inputs. `Number(...)` becomes an optional integer, with None standing for NaN and fractional values not modelled. `JSON.parse` becomes a `ParsedIds` input whose array elements are numbers. Arrays of other element types are not modelled.
- `onGenerationChange` persists the cohort to sessionStorage while initialisation reads localStorage. Persistence is not modelled.
- `alert`, `confirm` and `console` become outputs: notices, log outcomes and request values. Confirmation is a boolean input.
- The `new Date()` join timestamp and the parsing of a looked-up reporting date are not modelled. Both are an opaque `Timestamp` supplied by the caller.
- Async interleaving is not modelled. Each transition runs to completion. The one concurrent pair started at initialisation is shown to commute. The intermediate `isLoading = true` state of a title load is not observable in this model.
- `acceptApplicant` and `rejectApplicant` only log, so they are not modelled.
- The commented-out `cancelRegistration`, `getRegistrationId`, `getApplicantsForCourse` and `loadAllCourseInquiries` are not modelled.
- The stored user-role mapping is parsed at initialisation, and the parsed value is never used.
- ClassSignup.Initialize: assumes the stored user role is absent or parses. The source parses it outside any `try` (classsignup.page.ts:49-51), so a malformed stored role throws out of `ngOnInit` before the course load and the registration lookup run. On that input the model still loads and looks up.
- The course-with-registration interface is type-only and not modelled.
- `createCourse` on the sign-up page has no member. It only presents the modal and changes no state.
- Registrations.MapRegistration: the looked-up user id is copied as an optional number. Its JSON type is not checked.

=== FILE: classsignup.dfy ===
/**
 The course sign-up page as a state machine. Its state is the filtered course
 list, the ids joined in this session, the registration cache and the
 selected cohort; every remote response, stored value, confirmation and modal
 result is an input of the transition that consumes it.
 */
module ClassSignup {
  import opened Remote
  import opened Courses
  import opened Registrations
  import opened Notices

  datatype SignupState = SignupState(
    courses: seq<Course>,                   // the fetched courses of the selected cohort
    registered: set<int>,                   // course ids joined in this session
    cache: map<int, seq<Registration>>,     // course id -> registrations looked up for it
    selectedGeneration: string)

  /** The cohort selected before any stored choice is read. */
  const DefaultGeneration: string := "3기"

  /** The page as it is constructed. */
  const Fresh: SignupState := SignupState([], {}, map[], DefaultGeneration)

  predicate IsRegistered(s: SignupState, courseId: int)
  {
    courseId in s.registered
  }

  // ---------------------------------------------------------------- loading

  /** What a load reports to the console. */
  datatype LoadLog = Filtered | NoneForGeneration | LoadError

  datatype LoadResult = LoadResult(state: SignupState, log: LoadLog)

  /** The list fetch succeeded and its response carries `data`. */
  predicate Fetched(outcome: Outcome<Option<seq<Course>>>)
  {
    outcome.Success? && outcome.data.Some?
  }

  /** Fetch every course and keep those of the selected cohort. A failed fetch,
      or a response without `data` (where the filter itself throws), keeps the
      previous list. */
  function LoadCourses(s: SignupState, outcome: Outcome<Option<seq<Course>>>): (r: LoadResult)
    ensures r.state.registered == s.registered && r.state.cache == s.cache
    ensures r.state.selectedGeneration == s.selectedGeneration
    ensures Fetched(outcome) ==>
      forall c :: c in r.state.courses <==> c in outcome.data.value && c.generation == s.selectedGeneration
    ensures !Fetched(outcome) ==> r.state.courses == s.courses
    ensures r.log == NoneForGeneration <==> Fetched(outcome) && r.state.courses == []
    ensures r.log == LoadError <==> !Fetched(outcome)
  {
    if Fetched(outcome) then
      var kept := Selected(outcome.data.value, s.selectedGeneration);
      LoadResult(s.(courses := kept), if kept == [] then NoneForGeneration else Filtered)
    else
      LoadResult(s, LoadError)
  }

  /** A successful load shows exactly the fetched courses of the selected
      cohort, in the order the service listed them. */
  lemma LoadedInOrder(s: SignupState, list: seq<Course>)
    ensures IsSelection(list, s.selectedGeneration,
                        LoadCourses(s, Success(Some(list))).state.courses,
                        Positions(list, s.selectedGeneration))
  {
    SelectedIsOrderedSelection(list, s.selectedGeneration);
  }

  /** Loading twice with the same response gives the same state as loading once. */
  lemma LoadIdempotent(s: SignupState, outcome: Outcome<Option<seq<Course>>>)
    ensures LoadCourses(LoadCourses(s, outcome).state, outcome) == LoadCourses(s, outcome)
  {
  }

  /** Selecting a cohort and reloading: the registration state is kept, and the
      list is only replaced when the fetch succeeds (otherwise the courses of
      the previous cohort stay on screen). */
  function ChangeGeneration(s: SignupState, g: string, outcome: Outcome<Option<seq<Course>>>): (r: SignupState)
    ensures r.selectedGeneration == g
    ensures r.registered == s.registered && r.cache == s.cache
    ensures Fetched(outcome) ==> r.courses == Selected(outcome.data.value, g)
    ensures !Fetched(outcome) ==> r.courses == s.courses
  {
    LoadCourses(s.(selectedGeneration := g), outcome).state
  }

  /** After a cohort change whose fetch succeeds, the list is exactly the
      fetched courses of the new cohort, in the order the service listed them. */
  lemma ChangedInOrder(s: SignupState, g: string, list: seq<Course>)
    ensures IsSelection(list, g, ChangeGeneration(s, g, Success(Some(list))).courses, Positions(list, g))
  {
    SelectedIsOrderedSelection(list, g);
  }

  // ---------------------------------------------------- registration lookup

  /** How a registration lookup ended. */
  datatype LookupLog =
    | Cached         // the mapped registration was cached
    | MissingNested  // the response lacks its user or its course (logged only)
    | NoData         // the response carries no `data` (nothing happens)
    | LookupFailed   // the call failed (logged and alerted)

  datatype LookupResult = LookupResult(state: SignupState, log: LookupLog, notice: Option<Notice>)

  /** The lookup returned data that embeds both a user and a course. */
  predicate Usable(outcome: Outcome<Option<RawRegistration>>)
  {
    outcome.Success? && outcome.data.Some? && IsComplete(outcome.data.value)
  }

  /** Look up the current user's registration for `courseId`. A usable
      response replaces the cache entry of `courseId` with the one mapped
      registration; every other response leaves the cache as it was. */
  function LookupRegistration(s: SignupState, courseId: int, outcome: Outcome<Option<RawRegistration>>): (r: LookupResult)
    ensures r.state.courses == s.courses && r.state.registered == s.registered
    ensures r.state.selectedGeneration == s.selectedGeneration
    ensures r.log == Cached <==> Usable(outcome)
    ensures r.log == NoData <==> outcome == Success(None)
    ensures r.log == MissingNested <==> outcome.Success? && outcome.data.Some? && !IsComplete(outcome.data.value)
    ensures Usable(outcome) ==>
      && courseId in r.state.cache
      && |r.state.cache[courseId]| == 1
      && r.state.cache[courseId][0] == MapRegistration(outcome.data.value)
    ensures !Usable(outcome) ==> r.state.cache == s.cache
    ensures forall k :: k != courseId ==>
      (k in r.state.cache <==> k in s.cache) && (k in s.cache ==> r.state.cache[k] == s.cache[k])
    ensures r.notice.Some? <==> r.log == LookupFailed
    ensures r.log == LookupFailed <==> !outcome.Success?
    ensures r.notice.Some? ==> r.notice.value == RegistrationLoadFailed
  {
    match outcome
    case Success(None) => LookupResult(s, NoData, None)
    case Success(Some(raw)) =>
      if IsComplete(raw) then
        LookupResult(s.(cache := s.cache[courseId := [MapRegistration(raw)]]), Cached, None)
      else
        LookupResult(s, MissingNested, None)
    case _ => LookupResult(s, LookupFailed, Some(RegistrationLoadFailed))
  }

  /** A later usable response for the same course replaces the earlier entry,
      whatever it held. */
  lemma LookupOverwrites(s: SignupState, courseId: int,
                         first: Outcome<Option<RawRegistration>>, second: Outcome<Option<RawRegistration>>)
    requires Usable(second)
    ensures LookupRegistration(LookupRegistration(s, courseId, first).state, courseId, second).state.cache
         == s.cache[courseId := [MapRegistration(second.data.value)]]
  {
  }

  // ------------------------------------------------------------------ join

  /** The body of a join response. */
  datatype JoinBody = JoinBody(status: int, message: Option<string>)

  /** The remote join call a join issues. */
  datatype JoinCall = JoinCall(courseId: int, registration: Registration)

  datatype JoinResult = JoinResult(state: SignupState, notice: Notice, request: Option<JoinCall>)

  /** The join was attempted and the service answered with status 200. */
  predicate Accepted(token: Option<string>, outcome: Outcome<Option<JoinBody>>)
  {
    PresentText(token) && outcome.Success? && outcome.data.Some? && outcome.data.value.status == 200
  }

  /** How an attempted join that was not accepted failed. A missing body (its
      status cannot be read) and a body with another status both surface as a
      plain error, whatever message the body carries. */
  function Failure(outcome: Outcome<Option<JoinBody>>): JoinFailure
  {
    match outcome
    case HttpError(status) => HttpStatus(status)
    case _ => Plain
  }

  /** Join `courseId`. Without a credential nothing is sent. Otherwise a
      PENDING registration with id 0 is sent, and the course is marked joined
      exactly when the response status is 200. There is no guard against a
      second join of the same course. */
  function JoinCourse(s: SignupState, courseId: int, token: Option<string>,
                      identity: StoredIdentity, now: Timestamp,
                      outcome: Outcome<Option<JoinBody>>): (r: JoinResult)
    ensures r.state.courses == s.courses && r.state.cache == s.cache
    ensures r.state.selectedGeneration == s.selectedGeneration
    ensures !PresentText(token) ==> r.request == None && r.state == s && r.notice == LoginRequired
    ensures PresentText(token) ==> r.request == Some(JoinCall(courseId, JoinRequest(identity, now)))
    ensures Accepted(token, outcome) ==> r.state.registered == s.registered + {courseId}
    ensures !Accepted(token, outcome) ==> r.state.registered == s.registered
    ensures r.notice == JoinCompleted <==> Accepted(token, outcome)
    ensures PresentText(token) && !Accepted(token, outcome) ==> r.notice == FailureNotice(Failure(outcome))
  {
    if !PresentText(token) then
      JoinResult(s, LoginRequired, None)
    else
      var call := Some(JoinCall(courseId, JoinRequest(identity, now)));
      if Accepted(token, outcome) then
        JoinResult(s.(registered := s.registered + {courseId}), JoinCompleted, call)
      else
        JoinResult(s, FailureNotice(Failure(outcome)), call)
  }

  /** A course is registered after a join exactly when it was before or the
      join was accepted. */
  lemma JoinRegisters(s: SignupState, courseId: int, token: Option<string>,
                      identity: StoredIdentity, now: Timestamp, outcome: Outcome<Option<JoinBody>>)
    ensures IsRegistered(JoinCourse(s, courseId, token, identity, now, outcome).state, courseId)
        <==> IsRegistered(s, courseId) || Accepted(token, outcome)
  {
  }

  /** The message a join response carries never changes what the user sees. */
  lemma JoinIgnoresMessage(s: SignupState, courseId: int, token: Option<string>,
                           identity: StoredIdentity, now: Timestamp,
                           status: int, m1: Option<string>, m2: Option<string>)
    ensures JoinCourse(s, courseId, token, identity, now, Success(Some(JoinBody(status, m1))))
         == JoinCourse(s, courseId, token, identity, now, Success(Some(JoinBody(status, m2))))
  {
  }

  /** A transport error and a non-HTTP failure map to the fixed categories;
      a missing body fails when its status is read, which is a non-HTTP
      failure too. */
  lemma JoinFailureNotices(s: SignupState, courseId: int, token: Option<string>,
                           identity: StoredIdentity, now: Timestamp, status: int, m: Option<string>)
    requires PresentText(token)
    ensures JoinCourse(s, courseId, token, identity, now, HttpError(409)).notice == AlreadyJoined
    ensures JoinCourse(s, courseId, token, identity, now, HttpError(401)).notice == LoginRequired
    ensures JoinCourse(s, courseId, token, identity, now, HttpError(400)).notice == InvalidRequest
    ensures status !in {400, 401, 409} ==>
      JoinCourse(s, courseId, token, identity, now, HttpError(status)).notice == ServerError
    ensures JoinCourse(s, courseId, token, identity, now, OtherError(m)).notice == JoinFailed
    ensures JoinCourse(s, courseId, token, identity, now, Success(None)).notice == JoinFailed
    ensures status != 200 ==>
      JoinCourse(s, courseId, token, identity, now, Success(Some(JoinBody(status, m)))).notice == JoinFailed
  {
  }

  /** Joining a course already joined still sends a request: nothing guards
      against duplicate joins. */
  lemma JoinHasNoDuplicateGuard(s: SignupState, courseId: int, token: Option<string>,
                                identity: StoredIdentity, now: Timestamp, outcome: Outcome<Option<JoinBody>>)
    requires PresentText(token) && IsRegistered(s, courseId)
    ensures JoinCourse(s, courseId, token, identity, now, outcome).request.Some?
    ensures IsRegistered(JoinCourse(s, courseId, token, identity, now, outcome).state, courseId)
  {
  }

  /** Joining course 42 with a credential and a `{status: 200, message: "ok"}`
      response registers it and shows the success alert once. */
  lemma JoinScenario(s: SignupState, identity: StoredIdentity, now: Timestamp)
    ensures var r := JoinCourse(s, 42, Some("token"), identity, now, Success(Some(JoinBody(200, Some("ok")))));
      IsRegistered(r.state, 42) && r.notice == JoinCompleted
  {
  }

  // ---------------------------------------------------- update and delete

  /** The acknowledgement body of an update or delete call. */
  datatype Ack = Ack(message: Option<string>)

  datatype MutationResult<Req> = MutationResult(state: SignupState, request: Option<Req>, reloaded: bool)

  /** Delete `courseId` after asking for confirmation. Declining sends
      nothing. A delete whose response is non-null triggers a full reload; a
      failure, or a null response (reading its message throws), keeps the list. */
  function DeleteCourse(s: SignupState, courseId: int, confirmed: bool,
                        outcome: Outcome<Option<Ack>>,
                        reload: Outcome<Option<seq<Course>>>): (r: MutationResult<int>)
    ensures !confirmed ==> r.request == None && r.state == s && !r.reloaded
    ensures confirmed ==> r.request == Some(courseId)
    ensures r.reloaded <==> confirmed && outcome.Success? && outcome.data.Some?
    ensures r.reloaded ==> r.state == LoadCourses(s, reload).state
    ensures !r.reloaded ==> r.state == s
  {
    if !confirmed then MutationResult(s, None, false)
    else if outcome.Success? && outcome.data.Some? then
      MutationResult(LoadCourses(s, reload).state, Some(courseId), true)
    else
      MutationResult(s, Some(courseId), false)
  }

  /** Edit `course` in a modal. When the modal is dismissed with data, that
      data is sent as the update of `course`, and a successful update
      triggers a full reload; otherwise nothing changes. */
  function UpdateCourse(s: SignupState, course: Course, dismissed: Option<Course>,
                        outcome: Outcome<Option<Ack>>,
                        reload: Outcome<Option<seq<Course>>>): (r: MutationResult<(int, Course)>)
    ensures dismissed == None ==> r.request == None && r.state == s && !r.reloaded
    ensures dismissed.Some? ==> r.request == Some((course.courseId, dismissed.value))
    ensures r.reloaded <==> dismissed.Some? && outcome.Success?
    ensures r.reloaded ==> r.state == LoadCourses(s, reload).state
    ensures !r.reloaded ==> r.state == s
  {
    match dismissed
    case None => MutationResult(s, None, false)
    case Some(data) =>
      if outcome.Success? then
        MutationResult(LoadCourses(s, reload).state, Some((course.courseId, data)), true)
      else
        MutationResult(s, Some((course.courseId, data)), false)
  }

  /** A reload after an update or delete is a full refetch: the resulting list
      depends only on the fetched list and the cohort, never on the list shown
      before. */
  lemma MutationReloadIsFull(s: SignupState, t: SignupState, list: seq<Course>)
    requires s.selectedGeneration == t.selectedGeneration
    ensures LoadCourses(s, Success(Some(list))).state.courses == LoadCourses(t, Success(Some(list))).state.courses
  {
  }

  // ---------------------------------------------------------- initialising

  /** What the page reads from storage when it starts. */
  datatype StoredSettings = StoredSettings(
    selectedGeneration: Option<string>,
    courseId: JsNumber,   // Number() of the stored course id; an absent key reads as 0
    userId: JsNumber)     // Number() of the stored user id; an absent key reads as 0

  datatype InitResult = InitResult(state: SignupState, lookup: Option<(int, int)>, notice: Option<Notice>)

  /** The registration lookup runs only when both stored numbers are truthy. */
  predicate LooksUp(stored: StoredSettings)
  {
    NonZero(stored.courseId) && NonZero(stored.userId)
  }

  /** Start the page: a truthy stored cohort replaces the default, the course
      list is loaded, and the registration of the stored user for the stored
      course is looked up when both are truthy; a failed lookup raises its
      alert. */
  function Initialize(stored: StoredSettings, load: Outcome<Option<seq<Course>>>,
                      lookup: Outcome<Option<RawRegistration>>): (r: InitResult)
    ensures PresentText(stored.selectedGeneration) ==> r.state.selectedGeneration == stored.selectedGeneration.value
    ensures !PresentText(stored.selectedGeneration) ==> r.state.selectedGeneration == DefaultGeneration
    ensures r.lookup.Some? <==> LooksUp(stored)
    ensures LooksUp(stored) ==> r.lookup == Some((stored.courseId.value, stored.userId.value))
    ensures !LooksUp(stored) ==> r.state.cache == map[]
    ensures LooksUp(stored) && Usable(lookup) ==>
      r.state.cache == map[stored.courseId.value := [MapRegistration(lookup.data.value)]]
    ensures LooksUp(stored) && !Usable(lookup) ==> r.state.cache == map[]
    ensures r.state.registered == {}
    ensures Fetched(load) ==> r.state.courses == Selected(load.data.value, r.state.selectedGeneration)
    ensures !Fetched(load) ==> r.state.courses == []
    ensures r.notice.Some? <==> LooksUp(stored) && !lookup.Success?
    ensures r.notice.Some? ==> r.notice.value == RegistrationLoadFailed
  {
    var g := if PresentText(stored.selectedGeneration) then stored.selectedGeneration.value else DefaultGeneration;
    var loaded := LoadCourses(Fresh.(selectedGeneration := g), load).state;
    if LooksUp(stored) then
      var courseId := stored.courseId.value;
      var looked := LookupRegistration(loaded, courseId, lookup);
      InitResult(looked.state, Some((courseId, stored.userId.value)), looked.notice)
    else
      InitResult(loaded, None, None)
  }

  /** The load and the lookup started at initialisation are not awaited; they
      touch disjoint parts of the state, so either completion order gives the
      same state. */
  lemma LoadAndLookupCommute(s: SignupState, load: Outcome<Option<seq<Course>>>,
                             courseId: int, lookup: Outcome<Option<RawRegistration>>)
    ensures LookupRegistration(LoadCourses(s, load).state, courseId, lookup).state
         == LoadCourses(LookupRegistration(s, courseId, lookup).state, load).state
  {
  }

  // -------------------------------------------------------------- sessions

  /** One user action on the page, with the outcomes it consumes. */
  datatype Event =
    | Load(load: Outcome<Option<seq<Course>>>)
    | SelectGeneration(g: string, load: Outcome<Option<seq<Course>>>)
    | Lookup(courseId: int, lookup: Outcome<Option<RawRegistration>>)
    | Join(courseId: int, token: Option<string>, identity: StoredIdentity, now: Timestamp,
           joined: Outcome<Option<JoinBody>>)
    | Delete(courseId: int, confirmed: bool, deleted: Outcome<Option<Ack>>, load: Outcome<Option<seq<Course>>>)
    | Update(course: Course, dismissed: Option<Course>, updated: Outcome<Option<Ack>>,
             load: Outcome<Option<seq<Course>>>)

  function Step(s: SignupState, e: Event): SignupState
  {
    match e
    case Load(load) => LoadCourses(s, load).state
    case SelectGeneration(g, load) => ChangeGeneration(s, g, load)
    case Lookup(courseId, lookup) => LookupRegistration(s, courseId, lookup).state
    case Join(courseId, token, identity, now, joined) => JoinCourse(s, courseId, token, identity, now, joined).state
    case Delete(courseId, confirmed, deleted, load) => DeleteCourse(s, courseId, confirmed, deleted, load).state
    case Update(course, dismissed, updated, load) => UpdateCourse(s, course, dismissed, updated, load).state
  }

  function Run(s: SignupState, events: seq<Event>): SignupState
    decreases |events|
  {
    if events == [] then s else Run(Step(s, events[0]), events[1..])
  }

  /** The course ids of the accepted joins among `events`. */
  function AcceptedJoins(events: seq<Event>): set<int>
  {
    if events == [] then {}
    else
      var e := events[0];
      (if e.Join? && Accepted(e.token, e.joined) then {e.courseId} else {}) + AcceptedJoins(events[1..])
  }

  /** Over any sequence of actions no id ever leaves the joined set, and the
      only ids that enter it are those of accepted joins. */
  lemma {:induction false} RunKeepsRegistrations(s: SignupState, events: seq<Event>)
    ensures Run(s, events).registered == s.registered + AcceptedJoins(events)
    decreases |events|
  {
    if events != [] {
      var next := Step(s, events[0]);
      assert next.registered == s.registered +
        (if events[0].Join? && Accepted(events[0].token, events[0].joined) then {events[0].courseId} else {});
      RunKeepsRegistrations(next, events[1..]);
    }
  }
}

=== FILE: courses.dfy ===
/**
 Courses as the remote service lists them, and the cohort ("generation")
 filter the sign-up page applies to the fetched list.
 */
module Courses {
  import opened Remote

  /** One course listing; `generation` is the cohort tag the page filters on. */
  datatype Course = Course(
    courseId: int,
    title: string,
    description: string,
    instructorName: string,
    generation: string,
    notice: Option<string>)

  /** The courses of `list` whose generation is `g`, in their original order
      (the program's `list.filter(course => course.generation == g)`). */
  function Selected(list: seq<Course>, g: string): (r: seq<Course>)
    ensures |r| <= |list|
    ensures forall c :: c in r <==> c in list && c.generation == g
  {
    if list == [] then []
    else if list[0].generation == g then [list[0]] + Selected(list[1..], g)
    else Selected(list[1..], g)
  }

  /** Every index shifted by one: the positions of a tail inside the whole list. */
  function Shift(idx: seq<nat>): (r: seq<nat>)
    ensures |r| == |idx|
    ensures forall k :: 0 <= k < |idx| ==> r[k] == idx[k] + 1
  {
    seq(|idx|, k requires 0 <= k < |idx| => idx[k] + 1)
  }

  /** The positions in `list` of the courses of generation `g`, ascending. */
  function Positions(list: seq<Course>, g: string): seq<nat>
  {
    if list == [] then []
    else if list[0].generation == g then [0] + Shift(Positions(list[1..], g))
    else Shift(Positions(list[1..], g))
  }

  /** `r[k]` is the course at position `idx[k]` of `list`, for every k. */
  ghost predicate Picks(list: seq<Course>, r: seq<Course>, idx: seq<nat>)
  {
    && |idx| == |r|
    && forall k :: 0 <= k < |idx| ==> idx[k] < |list| && r[k] == list[idx[k]]
  }

  ghost predicate Ascending(idx: seq<nat>)
  {
    forall k, l :: 0 <= k < l < |idx| ==> idx[k] < idx[l]
  }

  /** Every position of `list` holding a course of generation `g` is in `idx`. */
  ghost predicate Covers(list: seq<Course>, g: string, idx: seq<nat>)
  {
    forall i :: 0 <= i < |list| && list[i].generation == g ==> i in idx
  }

  /** `r` is the order-preserving subsequence of `list` made of exactly the
      courses of generation `g`, picked at the strictly increasing positions
      `idx`, which include every position holding such a course. */
  ghost predicate IsSelection(list: seq<Course>, g: string, r: seq<Course>, idx: seq<nat>)
  {
    && Picks(list, r, idx)
    && Ascending(idx)
    && Covers(list, g, idx)
    && (forall k :: 0 <= k < |r| ==> r[k].generation == g)
  }

  lemma {:induction false} SelectedPicksPositions(list: seq<Course>, g: string)
    ensures Picks(list, Selected(list, g), Positions(list, g))
  {
    if list != [] {
      var tail := list[1..];
      SelectedPicksPositions(tail, g);
      var rt, st := Selected(tail, g), Shift(Positions(tail, g));
      assert forall k :: 0 <= k < |st| ==> st[k] < |list| && rt[k] == list[st[k]];
      if list[0].generation == g {
        var r, idx := Selected(list, g), Positions(list, g);
        assert r == [list[0]] + rt && idx == [0] + st;
        forall k | 0 <= k < |idx|
          ensures idx[k] < |list| && r[k] == list[idx[k]]
        {
          if k > 0 {
            assert idx[k] == st[k - 1] && r[k] == rt[k - 1];
          }
        }
      }
    }
  }

  lemma {:induction false} PositionsAscending(list: seq<Course>, g: string)
    ensures Ascending(Positions(list, g))
  {
    if list != [] {
      PositionsAscending(list[1..], g);
      var st := Shift(Positions(list[1..], g));
      assert Ascending(st);
      if list[0].generation == g {
        assert Positions(list, g) == [0] + st;
      }
    }
  }

  lemma {:induction false} PositionsCover(list: seq<Course>, g: string)
    ensures Covers(list, g, Positions(list, g))
  {
    if list != [] {
      var tail := list[1..];
      PositionsCover(tail, g);
      var it := Positions(tail, g);
      var st := Shift(it);
      forall i | 0 <= i < |list| && list[i].generation == g && i > 0
        ensures i in st
      {
        assert tail[i - 1] == list[i];
        var k :| 0 <= k < |it| && it[k] == i - 1;
        assert st[k] == i;
      }
      if list[0].generation == g {
        assert Positions(list, g) == [0] + st;
      }
    }
  }

  /** The filter keeps exactly the matching courses, in order. */
  lemma SelectedIsOrderedSelection(list: seq<Course>, g: string)
    ensures IsSelection(list, g, Selected(list, g), Positions(list, g))
  {
    SelectedPicksPositions(list, g);
    PositionsAscending(list, g);
    PositionsCover(list, g);
    var r := Selected(list, g);
    assert forall k :: 0 <= k < |r| ==> r[k] in r;
  }

  /** No two courses of the list share an id. */
  ghost predicate DistinctIds(list: seq<Course>)
  {
    forall i, j :: 0 <= i < j < |list| ==> list[i].courseId != list[j].courseId
  }

  /** Filtering a list without duplicate ids yields one without duplicate ids. */
  lemma SelectedKeepsDistinctIds(list: seq<Course>, g: string)
    requires DistinctIds(list)
    ensures DistinctIds(Selected(list, g))
  {
    SelectedIsOrderedSelection(list, g);
  }

  /** Filtering an already filtered list changes nothing. */
  lemma {:induction false} SelectedIdempotent(list: seq<Course>, g: string)
    ensures Selected(Selected(list, g), g) == Selected(list, g)
  {
    if list != [] {
      SelectedIdempotent(list[1..], g);
    }
  }

  /** A course of cohort `g` with the given id; the other fields do not matter. */
  function CourseOf(id: int, g: string): Course
  {
    Course(id, "", "", "", g, None)
  }

  /** Generations "1", "3", "3", "5" filtered by "3" keep the two courses of
      cohort "3", in their original order. */
  lemma FilterScenario()
    ensures Selected([CourseOf(1, "1"), CourseOf(2, "3"), CourseOf(3, "3"), CourseOf(4, "5")], "3")
         == [CourseOf(2, "3"), CourseOf(3, "3")]
  {
  }
}

=== FILE: coursetitle.dfy ===
/**
 The course title component as a state machine: it picks the active course id
 from storage, loads that course, and reloads after an edit or create modal
 reports a change.
 */
module CourseTitle {
  import opened Remote
  import opened Courses

  datatype TitleState = TitleState(
    courses: seq<Course>,
    courseId: int,        // 0 when no active course is known
    isLoading: bool,
    errorMessage: string)

  const MissingIdAtInit: string := "강좌 ID를 찾을 수 없습니다."
  const MissingIdAtLoad: string := "강좌 ID가 없습니다."
  const NoDataMessage: string := "서버로부터 데이터를 받지 못했습니다."
  const GenericLoadMessage: string := "강좌 정보를 불러오는 중 오류가 발생했습니다."
  const ModalErrorMessage: string := "모달을 여는 중 오류가 발생했습니다."

  // --------------------------------------------------------- construction

  /** What parsing the stored course ids as JSON produced. */
  datatype ParsedIds =
    | Unparseable               // the text is not JSON
    | JsonArray(ids: seq<int>)  // a JSON array of numbers
    | NotArray                  // any other JSON value

  /** The active course id: the first element of the stored array when the
      stored text is present and parses to a non-empty array, otherwise 0. */
  function StoredCourseId(stored: Option<string>, parsed: ParsedIds): (id: int)
    ensures PresentText(stored) && parsed.JsonArray? && |parsed.ids| > 0 ==> id == parsed.ids[0]
    ensures !(PresentText(stored) && parsed.JsonArray? && |parsed.ids| > 0) ==> id == 0
  {
    if PresentText(stored) then
      match parsed
      case JsonArray(ids) => if |ids| > 0 then ids[0] else 0
      case _ => 0
    else 0
  }

  /** The component as constructed from the stored text and its parse. */
  function Construct(stored: Option<string>, parsed: ParsedIds): (s: TitleState)
    ensures s.courses == [] && !s.isLoading && s.errorMessage == ""
    ensures s.courseId == StoredCourseId(stored, parsed)
  {
    TitleState([], StoredCourseId(stored, parsed), false, "")
  }

  /** A stored id that is absent, unparseable, not an array or an empty array
      leaves the component without an active course, which is then reported
      at initialisation without any fetch. */
  lemma NoStoredIdNoFetch(stored: Option<string>, parsed: ParsedIds, outcome: Outcome<Option<CoursePayload>>)
    requires !PresentText(stored) || !parsed.JsonArray? || parsed.ids == []
    ensures var r := Init(Construct(stored, parsed), outcome);
      !r.fetched && r.state.errorMessage == MissingIdAtInit && r.state.courses == []
  {
  }

  // ---------------------------------------------------------------- loading

  /** The `data` of a single-course response: one object or an array. */
  datatype CoursePayload = Single(course: Course) | Many(courses: seq<Course>)

  /** The payload as a list: a single object becomes a one-element list. */
  function AsList(p: CoursePayload): seq<Course>
  {
    match p
    case Single(c) => [c]
    case Many(cs) => cs
  }

  /** Loading a single object shows the one-element list holding it, the
      same state a one-element array response gives. */
  lemma SingleIsOneElementArray(s: TitleState, c: Course)
    requires s.courseId != 0
    ensures LoadTitle(s, Success(Some(Single(c)))).state.courses == [c]
    ensures LoadTitle(s, Success(Some(Single(c)))) == LoadTitle(s, Success(Some(Many([c]))))
  {
  }

  datatype LoadResult = LoadResult(state: TitleState, fetched: bool)

  /** The message shown for a failed fetch: an `Error`'s own message, a fixed
      one for a missing response or payload, and a generic one otherwise (an
      HTTP error response is not an `Error`). */
  function LoadErrorMessage(outcome: Outcome<Option<CoursePayload>>): string
  {
    match outcome
    case Success(_) => NoDataMessage
    case OtherError(Some(m)) => m
    case _ => GenericLoadMessage
  }

  /** The response carries a payload. */
  predicate Loaded(outcome: Outcome<Option<CoursePayload>>)
  {
    outcome.Success? && outcome.data.Some?
  }

  /** Load the active course. The error message is cleared when the load
      starts and `isLoading` is false once it ends. Without an active course
      nothing is fetched; on success the payload becomes the list; on any
      failure the list is emptied and the error's message is shown. */
  function LoadTitle(s: TitleState, outcome: Outcome<Option<CoursePayload>>): (r: LoadResult)
    ensures !r.state.isLoading && r.state.courseId == s.courseId
    ensures r.fetched <==> s.courseId != 0
    ensures s.courseId == 0 ==> r.state.courses == [] && r.state.errorMessage == MissingIdAtLoad
    ensures s.courseId != 0 && Loaded(outcome) ==>
      r.state.courses == AsList(outcome.data.value) && r.state.errorMessage == ""
    ensures s.courseId != 0 && !Loaded(outcome) ==>
      r.state.courses == [] && r.state.errorMessage == LoadErrorMessage(outcome)
    ensures s.courseId != 0 && Loaded(outcome) && outcome.data.value.Single? ==>
      r.state.courses == [outcome.data.value.course]
    ensures s.courseId != 0 && Loaded(outcome) && outcome.data.value.Many? ==>
      r.state.courses == outcome.data.value.courses
    ensures s.courseId != 0 && outcome.OtherError? && outcome.message.Some? ==>
      r.state.errorMessage == outcome.message.value
    ensures s.courseId != 0 && outcome == OtherError(None) ==> r.state.errorMessage == GenericLoadMessage
    ensures s.courseId != 0 && outcome.HttpError? ==> r.state.errorMessage == GenericLoadMessage
    ensures s.courseId != 0 && outcome == Success(None) ==> r.state.errorMessage == NoDataMessage
  {
    if s.courseId == 0 then
      LoadResult(TitleState([], s.courseId, false, MissingIdAtLoad), false)
    else if Loaded(outcome) then
      LoadResult(TitleState(AsList(outcome.data.value), s.courseId, false, ""), true)
    else
      LoadResult(TitleState([], s.courseId, false, LoadErrorMessage(outcome)), true)
  }

  /** What a load ends with depends only on the active course and the
      response, not on what was shown before: reloading with the same
      response is a no-op. */
  lemma LoadTitleIdempotent(s: TitleState, outcome: Outcome<Option<CoursePayload>>)
    ensures LoadTitle(LoadTitle(s, outcome).state, outcome) == LoadTitle(s, outcome)
  {
  }

  /** Start the component: load when an active course is known, otherwise
      report the missing id without fetching. */
  function Init(s: TitleState, outcome: Outcome<Option<CoursePayload>>): (r: LoadResult)
    ensures r.fetched <==> s.courseId != 0
    ensures s.courseId == 0 ==> r.state == s.(errorMessage := MissingIdAtInit)
    ensures s.courseId != 0 ==> r == LoadTitle(s, outcome)
  {
    if s.courseId != 0 then LoadTitle(s, outcome)
    else LoadResult(s.(errorMessage := MissingIdAtInit), false)
  }

  // ----------------------------------------------------------------- modals

  /** What the modal closes with; absent flags are false. */
  datatype DismissData = DismissData(updated: bool, created: bool)

  /** How showing a modal ended. */
  datatype ModalOutcome = ModalFailed | Dismissed(data: Option<DismissData>)

  datatype ModalResult = ModalResult(state: TitleState, reloaded: bool)

  /** The edit modal closed reporting an update. */
  predicate ReportsUpdate(modal: ModalOutcome)
  {
    modal.Dismissed? && modal.data.Some? && modal.data.value.updated
  }

  /** The create modal closed reporting a creation. */
  predicate ReportsCreate(modal: ModalOutcome)
  {
    modal.Dismissed? && modal.data.Some? && modal.data.value.created
  }

  /** After the edit modal closes, reload exactly when it reports an update. */
  function OpenUpdateModal(s: TitleState, modal: ModalOutcome,
                           reload: Outcome<Option<CoursePayload>>): (r: ModalResult)
    ensures r.reloaded <==> ReportsUpdate(modal)
    ensures r.reloaded ==> r.state == LoadTitle(s, reload).state
    ensures modal.ModalFailed? ==> r.state == s.(errorMessage := ModalErrorMessage)
    ensures modal.Dismissed? && !r.reloaded ==> r.state == s
  {
    match modal
    case ModalFailed => ModalResult(s.(errorMessage := ModalErrorMessage), false)
    case Dismissed(_) =>
      if ReportsUpdate(modal) then ModalResult(LoadTitle(s, reload).state, true)
      else ModalResult(s, false)
  }

  /** After the create modal closes, reload exactly when it reports a creation. */
  function OpenCreateModal(s: TitleState, modal: ModalOutcome,
                           reload: Outcome<Option<CoursePayload>>): (r: ModalResult)
    ensures r.reloaded <==> ReportsCreate(modal)
    ensures r.reloaded ==> r.state == LoadTitle(s, reload).state
    ensures modal.ModalFailed? ==> r.state == s.(errorMessage := ModalErrorMessage)
    ensures modal.Dismissed? && !r.reloaded ==> r.state == s
  {
    match modal
    case ModalFailed => ModalResult(s.(errorMessage := ModalErrorMessage), false)
    case Dismissed(_) =>
      if ReportsCreate(modal) then ModalResult(LoadTitle(s, reload).state, true)
      else ModalResult(s, false)
  }

  /** Each modal reacts only to its own flag: an edit modal that reports only
      a creation, and a create modal that reports only an update, change
      nothing, while each modal reporting its own flag alone reloads. */
  lemma ModalFlagsAreSeparate(s: TitleState, reload: Outcome<Option<CoursePayload>>)
    ensures OpenUpdateModal(s, Dismissed(Some(DismissData(false, true))), reload).state == s
    ensures OpenCreateModal(s, Dismissed(Some(DismissData(true, false))), reload).state == s
    ensures OpenUpdateModal(s, Dismissed(Some(DismissData(true, false))), reload).reloaded
    ensures OpenCreateModal(s, Dismissed(Some(DismissData(false, true))), reload).reloaded
  {
  }

  // ------------------------------------------------------------------ errors

  /** Dismiss the error message and change nothing else. */
  function ClearError(s: TitleState): (r: TitleState)
    ensures r.errorMessage == ""
    ensures r.courses == s.courses && r.courseId == s.courseId && r.isLoading == s.isLoading
  {
    s.(errorMessage := "")
  }

  /** After a successful load there is nothing to clear, and clearing twice is
      clearing once. */
  lemma ClearErrorAfterSuccess(s: TitleState, p: CoursePayload)
    requires s.courseId != 0
    ensures var loaded := LoadTitle(s, Success(Some(p))).state; ClearError(loaded) == loaded
    ensures ClearError(ClearError(s)) == ClearError(s)
  {
  }
}

=== FILE: notices.dfy ===
/**
 The alerts the sign-up page shows, as fixed categories, and the rule that
 turns a failed join into one of them.
 */
module Notices {

  /** Every alert the sign-up page can raise. */
  datatype Notice =
    | JoinCompleted           // the join was accepted
    | LoginRequired           // no credential stored, or HTTP 401
    | InvalidRequest          // HTTP 400
    | AlreadyJoined           // HTTP 409
    | ServerError             // any other HTTP status
    | JoinFailed              // any failure that is not an HTTP error response
    | RegistrationLoadFailed  // the registration lookup failed

  /** The text shown for each category. */
  function Text(n: Notice): string
  {
    match n
    case JoinCompleted => "강의 신청이 완료되었습니다."
    case LoginRequired => "로그인이 필요합니다."
    case InvalidRequest => "잘못된 요청입니다."
    case AlreadyJoined => "이미 신청한 강의입니다."
    case ServerError => "서버 오류가 발생했습니다."
    case JoinFailed => "강의 신청 중 오류가 발생했습니다."
    case RegistrationLoadFailed => "강의 등록 정보를 불러오는 중 오류가 발생했습니다."
  }

  /** Distinct categories are shown with distinct texts, so the user can tell
      every category apart. */
  lemma TextsDistinct(a: Notice, b: Notice)
    ensures Text(a) == Text(b) <==> a == b
  {
  }

  /** How a join failed: an HTTP error response with its status, or any other
      thrown value (including the error raised for a non-200 response body). */
  datatype JoinFailure = HttpStatus(status: int) | Plain

  /** The alert for a failed join. Statuses 400, 401 and 409 (sections 15.5.1,
      15.5.2 and 15.5.10 of RFC 9110) have fixed messages; any other status is a
      server error; a failure that is not an HTTP error response gets the
      generic join-failure message. */
  function FailureNotice(f: JoinFailure): (n: Notice)
    ensures n == InvalidRequest <==> f == HttpStatus(400)
    ensures n == LoginRequired <==> f == HttpStatus(401)
    ensures n == AlreadyJoined <==> f == HttpStatus(409)
    ensures n == ServerError <==> f.HttpStatus? && f.status !in {400, 401, 409}
    ensures n == JoinFailed <==> f.Plain?
    ensures n != JoinCompleted && n != RegistrationLoadFailed
  {
    match f
    case Plain => JoinFailed
    case HttpStatus(status) =>
      if status == 400 then InvalidRequest
      else if status == 401 then LoginRequired
      else if status == 409 then AlreadyJoined
      else ServerError
  }
}

=== FILE: registrations.dfy ===
/**
 Course registrations: the raw record the registration lookup returns, the
 complete snapshot the sign-up page caches after mapping it, and the
 registration request a join sends.
 */
module Registrations {
  import opened Remote

  /** Lifecycle status of a registration. */
  datatype Status = Pending | Accepted | Rejected | Cancelled

  /** An instant in time. Clock readings and date parsing are supplied by the caller. */
  type Timestamp = int

  /** The user embedded in a registration, every text field filled in. */
  datatype UserSnapshot = UserSnapshot(
    userId: JsNumber,
    loginId: string,
    userName: string,
    email: string,
    role: string)

  /** The course embedded in a registration, every text field filled in. */
  datatype CourseSnapshot = CourseSnapshot(
    courseId: int,
    title: string,
    description: string,
    instructorName: string,
    notice: string,
    generation: string)

  /** A registration as the page holds it; a join request carries no course. */
  datatype Registration = Registration(
    registrationId: int,
    status: Status,
    reportingDate: Timestamp,
    user: UserSnapshot,
    course: Option<CourseSnapshot>)

  /** The embedded user of a lookup response: every text field may be missing. */
  datatype RawUser = RawUser(
    userId: JsNumber,
    loginId: Option<string>,
    userName: Option<string>,
    email: Option<string>,
    role: Option<string>)

  /** The embedded course of a lookup response: every text field may be missing. */
  datatype RawCourse = RawCourse(
    courseId: int,
    title: Option<string>,
    description: Option<string>,
    instructorName: Option<string>,
    notice: Option<string>,
    generation: Option<string>)

  /** The `data` of a registration lookup response; user and course may be missing. */
  datatype RawRegistration = RawRegistration(
    registrationId: int,
    status: Status,
    reportingDate: Timestamp,
    user: Option<RawUser>,
    course: Option<RawCourse>)

  /** A missing or empty text field becomes `""`; any other is kept. */
  function MapUser(u: RawUser): UserSnapshot
  {
    UserSnapshot(u.userId, OrElse(u.loginId, ""), OrElse(u.userName, ""),
                 OrElse(u.email, ""), OrElse(u.role, ""))
  }

  function MapCourse(c: RawCourse): CourseSnapshot
  {
    CourseSnapshot(c.courseId, OrElse(c.title, ""), OrElse(c.description, ""),
                   OrElse(c.instructorName, ""), OrElse(c.notice, ""),
                   OrElse(c.generation, ""))
  }

  /** A response is usable only when it embeds both a user and a course. */
  predicate IsComplete(raw: RawRegistration)
  {
    raw.user.Some? && raw.course.Some?
  }

  /** The snapshot the page caches for a complete lookup response: id, status
      and date are copied, every present text field is copied, and every
      absent or empty one becomes `""`. */
  function MapRegistration(raw: RawRegistration): (m: Registration)
    requires IsComplete(raw)
    ensures m.registrationId == raw.registrationId
    ensures m.status == raw.status
    ensures m.reportingDate == raw.reportingDate
    ensures m.user.userId == raw.user.value.userId
    ensures m.course.Some? && m.course.value.courseId == raw.course.value.courseId
    ensures m.user.loginId == "" <==> !PresentText(raw.user.value.loginId)
    ensures m.user.userName == "" <==> !PresentText(raw.user.value.userName)
    ensures m.user.email == "" <==> !PresentText(raw.user.value.email)
    ensures m.user.role == "" <==> !PresentText(raw.user.value.role)
    ensures m.course.value.title == "" <==> !PresentText(raw.course.value.title)
    ensures m.course.value.description == "" <==> !PresentText(raw.course.value.description)
    ensures m.course.value.instructorName == "" <==> !PresentText(raw.course.value.instructorName)
    ensures m.course.value.notice == "" <==> !PresentText(raw.course.value.notice)
    ensures m.course.value.generation == "" <==> !PresentText(raw.course.value.generation)
    ensures PresentText(raw.user.value.loginId) ==> m.user.loginId == raw.user.value.loginId.value
    ensures PresentText(raw.user.value.userName) ==> m.user.userName == raw.user.value.userName.value
    ensures PresentText(raw.user.value.email) ==> m.user.email == raw.user.value.email.value
    ensures PresentText(raw.user.value.role) ==> m.user.role == raw.user.value.role.value
    ensures PresentText(raw.course.value.title) ==> m.course.value.title == raw.course.value.title.value
    ensures PresentText(raw.course.value.description) ==>
      m.course.value.description == raw.course.value.description.value
    ensures PresentText(raw.course.value.instructorName) ==>
      m.course.value.instructorName == raw.course.value.instructorName.value
    ensures PresentText(raw.course.value.notice) ==> m.course.value.notice == raw.course.value.notice.value
    ensures PresentText(raw.course.value.generation) ==>
      m.course.value.generation == raw.course.value.generation.value
  {
    Registration(raw.registrationId, raw.status, raw.reportingDate,
                 MapUser(raw.user.value), Some(MapCourse(raw.course.value)))
  }

  /** The raw record that carries every field of a snapshot. */
  function UserAsRaw(u: UserSnapshot): RawUser
  {
    RawUser(u.userId, Some(u.loginId), Some(u.userName), Some(u.email), Some(u.role))
  }

  function CourseAsRaw(c: CourseSnapshot): RawCourse
  {
    RawCourse(c.courseId, Some(c.title), Some(c.description), Some(c.instructorName),
              Some(c.notice), Some(c.generation))
  }

  /** Mapping a fully present record is lossless, and mapping loses
      information exactly when some text field is missing. */
  lemma MapUserRoundTrip(u: RawUser, s: UserSnapshot)
    ensures MapUser(UserAsRaw(s)) == s
    ensures UserAsRaw(MapUser(u)) == u <==>
      u.loginId.Some? && u.userName.Some? && u.email.Some? && u.role.Some?
  {
  }

  lemma MapCourseRoundTrip(c: RawCourse, s: CourseSnapshot)
    ensures MapCourse(CourseAsRaw(s)) == s
    ensures CourseAsRaw(MapCourse(c)) == c <==>
      c.title.Some? && c.description.Some? && c.instructorName.Some? &&
      c.notice.Some? && c.generation.Some?
  {
  }

  /** The identity fields a join reads from storage, each independently. */
  datatype StoredIdentity = StoredIdentity(
    userId: JsNumber,          // Number() of the stored user number
    loginId: Option<string>,
    userName: Option<string>,
    role: Option<string>)

  /** The registration a join sends: id 0 (the server assigns the real one),
      status PENDING, the given time, no course, an empty email and the
      stored identity with missing text fields replaced by `""`. */
  function JoinRequest(identity: StoredIdentity, now: Timestamp): (r: Registration)
    ensures r.registrationId == 0 && r.status == Pending && r.reportingDate == now
    ensures r.course == None
    ensures r.user.email == ""
    ensures r.user.userId == identity.userId
    ensures PresentText(identity.loginId) ==> r.user.loginId == identity.loginId.value
    ensures !PresentText(identity.loginId) ==> r.user.loginId == ""
    ensures PresentText(identity.userName) ==> r.user.userName == identity.userName.value
    ensures !PresentText(identity.userName) ==> r.user.userName == ""
    ensures PresentText(identity.role) ==> r.user.role == identity.role.value
    ensures !PresentText(identity.role) ==> r.user.role == ""
  {
    var user := MapUser(RawUser(identity.userId, identity.loginId, identity.userName, None, identity.role));
    Registration(0, Pending, now, user, None)
  }

  /** Two stored identities yield the same join request exactly when they
      agree on the user number and on each text field once a missing or
      empty value is read as `""`; the request never depends on anything else. */
  lemma JoinRequestDeterminedByIdentity(a: StoredIdentity, b: StoredIdentity, now: Timestamp)
    ensures JoinRequest(a, now) == JoinRequest(b, now) <==>
      && a.userId == b.userId
      && OrElse(a.loginId, "") == OrElse(b.loginId, "")
      && OrElse(a.userName, "") == OrElse(b.userName, "")
      && OrElse(a.role, "") == OrElse(b.role, "")
  {
  }
}

=== FILE: remote.dfy ===
/**
 Values that cross the boundary between the two components and the outside
 world: optional values, the outcome of one call to the remote course
 service, and the JavaScript truthiness rules the components apply to them.
 */
module Remote {

  /** A value that may be absent (`null` / `undefined` in the program). */
  datatype Option<+T> = None | Some(value: T)

  /** The outcome of awaiting one call to the remote course service. */
  datatype Outcome<+T> =
    | Success(data: T)                     // the call resolved with this response
    | HttpError(status: int)               // rejected with an HTTP error response carrying this status
    | OtherError(message: Option<string>)  // rejected otherwise; Some(m) when the value is an `Error` with message m

  /** A JavaScript number read back with `Number(...)`: None stands for NaN.
      Fractional values are not modelled. */
  type JsNumber = Option<int>

  /** Truthiness of an optional string: present and non-empty. */
  predicate PresentText(s: Option<string>)
  {
    s.Some? && s.value != ""
  }

  /** Truthiness of a number: neither 0 nor NaN. */
  predicate NonZero(n: JsNumber)
  {
    n.Some? && n.value != 0
  }

  /** The expression `s || fallback` on an optional string. */
  function OrElse(s: Option<string>, fallback: string): string
  {
    if PresentText(s) then s.value else fallback
  }
}
